=== FILE: README.md ===
# BINAnboto core in Dafny

BINAnboto is a viewer for arbitrary binary files. It shows a file as text and
as grids of fixed-width integers and floats. It can also search those views
and look for "areas of interest" (AOI): windows of bytes that look like
deliberately written numbers or identifier-like text. This project models the
integer and byte logic behind the viewer and proves properties of it:

- the element types and their width table;
- the layout arithmetic: cell offsets, the grid's row count, and mapping an
  offset back to its row;
- the cell formatter, with its error and missing-value rules;
- the byte-by-byte text rendering and the text AOI test;
- the numeric AOI classifier for 32- and 64-bit integers;
- the scan planner;
- the four forward sweeps: text search, typed search, text next-AOI and typed
  next-AOI.

The file is modelled as an immutable `ByteSource`: a sequence of bytes plus
the sticky fault flag of the stream. The application's `size` is the length
of that sequence. Each grid column's `BinDataSource` keeps its own copy of
`size`, captured by `Init`. Integer reads are little-endian two's complement
on 1, 2, 4 or 8 bytes. A 32-bit value is widened to 64 bits without changing
it. That is an assumption about `FileInBinary::Read`, which is not part of this
model. Layout settings (`from`, `phase`, `columns`) form an explicit `Config`
value. At the engine boundary it must satisfy `from >= 0`, `phase >= 0` and
`columns >= 1`. The source asserts a non-negative cell offset and divides by
`columns`.

Modules, one file each: `CInt` (C++ truncating division), `Bytes` (the file
and the little-endian codec), `Layout` (types, widths, offsets, row count),
`Cells` (the cell formatter), `TextView` (rendering and the text AOI test),
`Aoi` (numeric classifier), `Scan` (scan planner), `Decimal` (decimal text of
integers), `Search` (the sweeps and the two commands).

Boundary behaviour is kept as the source has it, and stated by lemmas:

- `Format` treats an element that ends exactly at the captured size as missing
  (`>=`). So in a one-column layout that fits the file exactly, the last
  counted row is blank (`Cells.ExactFitHidesLastElement`).
- The row count adds a partial row only when the leftover bytes exceed one
  element (strict `>`). Exactly then does that row's first cell show a value
  (`Cells.ExtraRowIffFirstCellShown`).
- The text search starts at position 0 whatever the cursor. Its contract does
  not mention the cursor.
- The typed next-AOI sweep never starts at row 0.
- Sampled scan offsets are spread over `num` bytes from `phase`. They are not
  scaled by the element width and not shifted by `from`.
- The text view skips `from` bytes while the grids skip `from` elements
  (`TextView.TextOriginVsGridOrigin`).
- The text next-AOI sweep only looks at windows that end strictly before the
  end of the text.

The model also keeps these behaviours of the code:

- Only the stream's fault flag gives the `Error` text (main.cpp:227-228). A
  read that throws is caught and shows as missing (main.cpp:236, 246-247).
- The text search computes a start after the cursor (main.cpp:352-356) but
  scans from position 0 (main.cpp:360).
- The typed search steps one element at a time (main.cpp:383), so every
  column is tested. The row it reports is the row of the matching element
  (main.cpp:396).
- With no cursor, the typed next-AOI sweep starts at row 1 (main.cpp:432-435).

## Model

| member | source | states |
|---|---|---|
| CInt.Quot | main.cpp:204 | C++ `/` on a positive divisor: truncation toward zero, bracketing the dividend between consecutive multiples on the side of zero |
| CInt.Rem | main.cpp:205 | the leftover `usable - rows*stride` is the C++ remainder: quotient times divisor plus remainder gives the dividend, and the remainder has the dividend's sign and is smaller than the divisor |
| CInt.QuotOfNonNegative | main.cpp:204-205 | on non-negative dividends the C++ quotient and remainder coincide with Euclidean ones |
| Bytes.ReadBytes | main.cpp:234-247 | a read at `pos` succeeds exactly when the element lies inside the file, and then yields the file's bytes at `pos` in order |
| Bytes.DecodeUnsigned | main.cpp:238-241 | the little-endian value of `n` bytes is below 256^n |
| Bytes.DecodeSigned | main.cpp:238-241 | the two's complement value of `n` bytes lies in [-2^(8n-1), 2^(8n-1)) and is negative exactly when the top byte is 128 or more |
| Bytes.HighByteSign | main.cpp:238-241 | the unsigned value reaches the sign bound exactly when the last (most significant) byte does |
| Bytes.DecodeEncodeUnsigned | main.cpp:238-241 | decoding the `n`-byte encoding of a value below 256^n returns the value |
| Bytes.EncodeDecodeUnsigned | main.cpp:238-241 | re-encoding a decoded byte string reproduces it |
| Bytes.DecodeEncodeSigned | main.cpp:238-241 | decoding the two's complement encoding of an in-range value returns the value |
| Bytes.EncodeDecodeSigned | main.cpp:238-241 | a signed read loses no information: its value re-encodes to exactly the bytes read |
| Layout.Ordinal | BINAnboto.h:12 | every element type has an ordinal below `DataTypeNum`, so it indexes `DataSize` in bounds |
| Layout.TypeAt | main.cpp:186 | the cast `DataType(i)` is the inverse of the ordinal for every `i < DataTypeNum` |
| Layout.OrdinalsCoverTable | BINAnboto.h:12-13 | `DataTypeNum` (7) equals the number of width entries and the ordinal/cast pair round-trips |
| Layout.Width | BINAnboto.h:13 | every width is one of 1, 2, 4, 8 |
| Layout.WidthTable | BINAnboto.h:13 | Tchar, Tint8, Tint16, Tint32, Tint64, Tdouble32, Tdouble64 have widths 1, 1, 2, 4, 8, 4, 8 |
| Layout.EqualBitSizeEqualWidth | BINAnboto.h:13 | Tint32 and Tdouble32 share width 4; Tint64 and Tdouble64 share width 8 |
| Layout.Init | BINAnboto.h:17-26 | `Init` stores the six layout fields verbatim and sets the stride `sz` to the type's width, so the source is consistent |
| Layout.InitOffset | main.cpp:230 | a column built by `Init` places cell (row, column) at `phase + (row*columns + column + from)*width` |
| Layout.NeighbourOffsets | main.cpp:230 | horizontally adjacent cells are one width apart; vertically adjacent cells are `columns*width` apart |
| Layout.OffsetsRowMajor | main.cpp:230 | for columns inside the row, a cell later in row-major order has a strictly larger offset |
| Layout.RowCount | main.cpp:201-209 | for non-negative usable bytes the count is the number of whole rows plus one exactly when the leftover exceeds one element; with negative usable bytes it is not positive |
| Layout.Usable | main.cpp:203 | the bytes left after the byte skip and the element skip; `Cells.EndPastSize` relates it to a cell's end |
| Layout.ElementOffset | main.cpp:380-383 | the byte offset `phase + k*width` of element `k`, which the typed sweeps step through one width at a time; `Search.ElementOffsetMonotone` shows it grows with `k` |
| Layout.CellOffset | main.cpp:230 | the offset of a cell; `Layout.InitOffset`, `Layout.NeighbourOffsets` and `Layout.OffsetsRowMajor` characterise it |
| Layout.RowOf | main.cpp:396 | the row an offset falls in (the same formula as main.cpp:444); `Layout.RowOfCell` shows it inverts the cell offset |
| Layout.RowOfElement | main.cpp:396 | mapping the offset of element `k` back gives row `(k - from)/columns`, for any column, aligned or not |
| Layout.RowOfCell | main.cpp:444 | mapping a cell's offset back recovers the cell's row for every column `0 <= column < columns` |
| Layout.BeyondCountArith | main.cpp:203-207 | at or past the row count, every cell of the row ends at or past the usable bytes |
| Layout.CountedRowArith | main.cpp:203-207 | inside the row count, a row's first element ends strictly inside the usable bytes, except the last row of a one-column exact fit |
| Layout.ExtraRowArith | main.cpp:205-207 | the extra row is counted exactly when its first element ends strictly inside the usable bytes |
| Layout.ElementRowArith | main.cpp:396 | an element ending strictly inside the usable bytes lies in a counted row, at or after the row the sweep started from |
| Cells.Format | main.cpp:224-249 | a faulty file gives the error text; an element ending at or past the captured size, a Tchar column or a read past the end of the file gives Missing; an element ending before the captured size and inside the file shows a value unless the column is Tchar; integer cells hold a value in their width's signed range that re-encodes to the file's bytes at the offset; float cells hold exactly the file's bytes of the element |
| Cells.MissingIffPastEnd | main.cpp:232-233 | for an integer column over the whole file, a cell is missing exactly when `pos + width >= size` |
| Cells.EndPastSize | main.cpp:230-232 | how far a cell's end lies past the size, expressed with the usable byte count |
| Cells.NonNegativeOffset | main.cpp:231 | with valid settings every cell offset is non-negative, as the assertion demands |
| Cells.BeyondRowCountIsMissing | main.cpp:203-233 | no row at or beyond the row count shows a value in any column |
| Cells.CountedRowShowsFirstCell | main.cpp:203-233 | every counted row shows its first cell, except the last row when a one-column layout ends exactly on an element boundary |
| Cells.ExtraRowIffFirstCellShown | main.cpp:205-233 | the partial row is added exactly when its first cell shows a value |
| Cells.ExactFitHidesLastElement | main.cpp:232 | the last element of an exactly fitting one-column layout is never shown |
| TextView.RenderByte | main.cpp:156-169 | a byte renders to at most four characters, none of them below 32 other than newline (DEL and bytes above it are copied as they are); only carriage return renders to nothing |
| TextView.RenderByteTable | main.cpp:156-169 | the effective table: bytes >= 32 verbatim, 10 as newline, 13 dropped, 9 as four spaces, every other byte as `*`; the space test and the second tab test are never reached |
| TextView.Render | main.cpp:154-170 | rendered text holds no character below 32 except newline and is at most four times as long as the bytes |
| TextView.RenderConcat | main.cpp:154-170 | rendering distributes over concatenation of byte sequences |
| TextView.RenderPrintable | main.cpp:156-157 | bytes that are all printable render as themselves, character for character |
| TextView.ViewText | main.cpp:141-171 | a faulty file shows `Error`; otherwise the text view is the rendering of the bytes from `from + phase` on, so that rendering the skipped prefix and appending the view gives the whole file's rendering |
| TextView.IsTextAOI | main.cpp:306-313 | the text classifier as written; `TextView.TextAOIIff` characterises it |
| TextView.TextAOIIff | main.cpp:306-313 | the text classifier accepts exactly the strings made only of digits, letters, `_`, `.` and `,` (the empty string included) |
| TextView.TextAOIConcat | main.cpp:306-313 | a concatenation is accepted exactly when both parts are |
| TextView.TextOriginVsGridOrigin | main.cpp:151 | the text view starts at byte `from + phase`, which is the grid's first cell only when `from` is 0 or the width is 1 |
| Aoi.Slot | main.cpp:272-273 | the element of width `w` at byte `p` is read as two's complement when it lies in the file, and its value is always within the width's signed range |
| Aoi.WindowValues | main.cpp:269-273 | the window holds `len` values, and value `i` is the element at byte `pos + i*w` |
| Aoi.WindowValuesAt | main.cpp:269-273 | value `i` of the window is the signed element decoded from the `w` bytes at `pos + i*w`, which lie inside the file |
| Aoi.ValuesAccepted | main.cpp:278-301 | the integer thresholds on a window's values; `Aoi.ValuesAcceptedIff` characterises them as "all non-zero with magnitude at most 1e10" |
| Aoi.MaxOf | main.cpp:283 | the maximum is an element of the window and bounds every element from above |
| Aoi.MinOf | main.cpp:284 | the minimum is an element of the window and bounds every element from below |
| Aoi.ValuesAcceptedIff | main.cpp:278-301 | the integer thresholds accept a window exactly when every value is non-zero with magnitude at most 1e10; the spread test against 1e20 never decides |
| Aoi.WindowGuard | main.cpp:261 | the availability test `(size - pos)/width >= len` holds exactly when the window of `len` elements fits in the file |
| Aoi.IsAOI | main.cpp:260-304 | never accepts a Tchar, Tint8 or Tint16 window, and accepts only windows that fit in the file; the three lemmas below say what it decides |
| Aoi.WindowFits | main.cpp:261 | the guard in product form: `len` elements of the type fit between `pos` and the end of the file; `Aoi.IsAOIGuard` shows it is the C++ quotient test |
| Aoi.WindowAccepted | main.cpp:264-302 | the per-type decision on a fitting window: the integer thresholds for Tint32/Tint64, the float verdict for floats, rejection otherwise; `Aoi.IsAOIIntegers` and `Aoi.IsAOIFloats` characterise it |
| Aoi.IntegerWindowAccepted | main.cpp:267-301 | the integer thresholds applied to the window's values; `Aoi.IntegerWindowAcceptedIff` characterises it |
| Aoi.IsAOIGuard | main.cpp:261-262 | fewer than `len` whole elements left after `pos`, by C++ division, is exactly the window not fitting, and such a window is rejected |
| Aoi.IsAOIIntegers | main.cpp:264-303 | for Tint32 and Tint64, a window is accepted exactly when it fits and all its values are non-zero with magnitude at most 1e10 |
| Aoi.IntegerWindowAcceptedIff | main.cpp:278-301 | on a fitting integer window, the max/min thresholds accept exactly when every value of the window is plausible |
| Aoi.IsAOIFloats | main.cpp:274-295 | a fitting float window is accepted exactly when the float verdict accepts its bytes |
| Aoi.ZeroRejected | main.cpp:278-300 | an integer window containing a zero is never accepted |
| Scan.CandidateCount | main.cpp:317 | the number of candidate window starts; `Scan.ScanOffsets` and `Scan.ExhaustiveWindowsFit` state what it bounds |
| Scan.ScanOffsets | main.cpp:316-330 | fewer than 10 candidates give no offsets; fewer than 1000 give one per candidate; otherwise exactly 1000 |
| Scan.ExhaustiveOffsets | main.cpp:322-325 | exhaustive offsets start at element `from`, are one element apart and strictly increasing |
| Scan.SampledOffsets | main.cpp:327-329 | sampled offsets start at `phase`, never decrease and stay below `phase + num` |
| Scan.ExhaustiveWindowsFit | main.cpp:317-325 | every window an exhaustive scan tests lies wholly in the file, so the availability test never rejects it |
| Scan.NonNegativeOffsets | main.cpp:321-330 | no tested offset lies before `phase` |
| Scan.CountAccepted | main.cpp:331-335 | the number of accepted windows never exceeds the number tested |
| Scan.CountWindows | main.cpp:331-333 | the classification loop counts exactly the accepted offsets |
| Scan.ScanAOIs | main.cpp:315-338 | the scan tests exactly the planned offsets, all at or after `phase`, and reports how many the classifier accepts, never more than it tested |
| Decimal.NatText | main.cpp:386-389 | a natural number's text is a non-empty digit string without a leading zero |
| Decimal.IntText | main.cpp:386-389 | an integer's text is non-empty and starts with `-` exactly for negative values |
| Decimal.ParseNatText | main.cpp:386-389 | the digits of a natural number read back as the number |
| Decimal.ParseIntText | main.cpp:386-389 | an integer's decimal text reads back as the integer, so the text determines the element value |
| Search.SearchText | main.cpp:351-368 | returns the first position of the whole text view where the term occurs, or not found when it occurs nowhere; the cursor plays no part |
| Search.NextAoiText | main.cpp:410-427 | returns the first position after the cursor where ten token characters start, among windows ending strictly before the end of the text, or not found when there is none |
| Search.NextAfter | main.cpp:371-375 | a resumed sweep starts right after a non-negative cursor, and at exactly 0 with a negative one; the typed search uses it for rows and the text next-AOI sweep for text positions (main.cpp:411-415) |
| Search.TokenWindowAt | main.cpp:419-421 | ten token characters start at a position of the text; `Search.NextAoiText` returns the first such position after the cursor |
| Search.FirstElement | main.cpp:380 | the element at column 0 of a row, where both typed sweeps start (also main.cpp:440); `Search.SearchTyped` and `Search.NextAoiTyped` report the first hit from it |
| Search.AoiStartRow | main.cpp:432-435 | the typed next-AOI sweep starts at `max(cursor, 0) + 1`: one row later than the typed search when there is no cursor, and never at row 0 |
| Search.OccursAt | main.cpp:361-362 | the term occurs at a position of the text; `Search.SearchText` returns the first such position |
| Search.ElementTextDecimal | main.cpp:384-393 | an integer element's text is an optional minus sign and digits, and it reads back as the value decoded from the element's bytes |
| Search.ElementInFile | main.cpp:383 | element `k` ends strictly before the end of the file, the typed search's loop bound; `Search.NoMatchBeyond` shows it fails for every later element once it fails |
| Search.ElementMatches | main.cpp:383-394 | an element ending before the end of the file whose text contains the term; `Search.SearchTyped` reports the first one |
| Search.WindowInSweep | main.cpp:442 | the ten-element window at an element ends strictly before the end of the file; `Search.NoAoiBeyond` shows it fails for every later element once it fails |
| Search.AoiAt | main.cpp:442-443 | the typed next-AOI sweep accepts the window at an element; `Search.NextAoiTyped` reports the first one |
| Search.ElementOffsetMonotone | main.cpp:383 | element offsets grow with the element index |
| Search.FoundRowBounds | main.cpp:396 | a row reported for an element that ends inside the file is at least the starting row and below the grid's row count |
| Search.SearchTyped | main.cpp:369-404 | not found when the start row is past the row count; otherwise the row of the first element from column 0 of the start row whose decimal text contains the term, looking only at elements ending before the end of the file; that row lies after the cursor and below the row count |
| Search.FirstHit | main.cpp:383 | the element loop both typed sweeps share (also main.cpp:442): it stops at the first accepted element whose span ends before the end of the file, with every earlier element rejected; when it finds none, the element where it stopped no longer fits |
| Search.FirstMatchingElement | main.cpp:380-403 | the element loop returns the first matching element from `k0` on, or reports that none matches |
| Search.NoMatchBeyond | main.cpp:383 | once an element no longer ends inside the file, no later element matches |
| Search.NextAoiTyped | main.cpp:428-450 | not found when the start row is past the row count; otherwise the row of the first element, not only column 0, whose ten-element window ends before the end of the file and is accepted; that row is at least 1, after the cursor and below the row count |
| Search.FirstAoiElement | main.cpp:440-450 | the element loop returns the first accepted window from `k0` on, or reports that none is accepted |
| Search.Search | main.cpp:340-406 | an empty term is refused; the text tab reports the first occurrence in the text view, or not found when the term occurs nowhere; typed tabs report the row of the first matching element from column 0 of the start row, after the cursor and below the row count, or not found when the start row is past the count or no later element matches |
| Search.NextAOI | main.cpp:408-453 | the text tab reports the first token window after the cursor that ends before the end of the text, or not found when there is none; typed tabs report the row of the first accepted window from the start row, at least 1, after the cursor and below the row count, or not found when the start row is past the count or no later window is accepted |

## Left out

- GUI plumbing is not modelled: control wiring, tabs, saving and restoring the grid and editor cursors, the row and item display fields, dialogs and the application entry point. Results are returned as values instead.
- Configuration persistence (`Jsonize`, `LoadSerializeJson`, `StoreSerializeJson`, the data folder) is not modelled. It is file-system I/O.
- Real file I/O is replaced by the `ByteSource` value. Setting the stream's fault flag on a failed read is not modelled, because the model's reads are pure. Reads in the numeric classifier and the typed sweeps are in bounds anyway.
- Floating-point decoding, the float AOI thresholds, `Tiny`/`FindTiny`, and the decimal text of floats are not modelled. They are floating-point numerics. A `FloatOracle` parameter supplies a verdict and a text for a float window's raw bytes, and float cells carry their raw bytes.
- `IsNum`, `Max`, `Min` and `Sum` are library calls. `IsNum` is taken as true for integer windows. `Max`/`Min` are exact integer maxima and minima. `Sum` is a count.
- 32-bit overflow of `int pos`, `int row`, `int rows`, and of `int(...)` on sampled offsets is not modelled. Integers are unbounded.
- Scan.ScanOffsets: uses the exact floor of `num*i/1000`. The source divides in double precision, which can round up for very large `num`.
- Search.SearchText: takes the term after `Trim`, which is a library call. A window that would run past the end of the text counts as no match, which assumes the editor clamps `Get` to the end of the text.
- Decimal.IntText: the decimal form of the decoded value is assumed for every integer type. How the toolkit's string stream formats an 8-bit value is not part of this model.
- TextView.IsLetter: only ASCII letters are accepted. The toolkit's `IsLetter` is not part of this model.
- TextView.ViewText: treats the text view as one character per byte. The editor decodes the text it is given (as UTF-8 by default), so after a valid multi-byte sequence its character positions, and the positions the text sweeps report, differ from this model's. The term's length is also taken in bytes while the editor reads characters.
- Cells.Format: a 64-bit cell holding the smallest 64-bit value is shown as an integer. In the toolkit that value is the 64-bit null, so the grid shows it blank. The null convention is library behaviour and is not part of this model.
- Search.ElementTextDecimal: for the same reason, the smallest 64-bit value gets its decimal text. The toolkit most likely formats it as empty text.
- `ScanAOIs` has no caller in the source. It is modelled as written, and only the count is reported.
- The grid's row count used by the typed sweeps is assumed to be current. That is, the sweeps take it to be `RowCount` for the same settings and file size.

=== FILE: aoi.dfy ===
/**
 The numeric area-of-interest classifier: whether a window of consecutive
 elements looks like deliberately written numbers rather than noise.
 */
module Aoi {
  import opened CInt
  import opened Bytes
  import opened Layout

  /** Window length every caller passes. */
  const WindowLength: int := 10

  /** Largest magnitude an integer window may hold (1e10). */
  const IntMagnitudeLimit: int := 10_000_000_000

  /** Largest spread an integer window may have (1e20). */
  const IntRangeLimit: int := 100_000_000_000_000_000_000

  /**
   What floating-point elements contribute, which this model does not
   decode: the verdict of the floating-point thresholds on a window's raw
   bytes, and the decimal text of one element's raw bytes.
   */
  datatype FloatOracle = FloatOracle(
    accepts: (DataType, seq<byte>) -> bool,
    text: (DataType, seq<byte>) -> string)

  /**
   The signed value of width `w` stored at byte `p`, for an element that lies
   in the file; 0 stands for an element outside it, which no window reads.
   */
  function Slot(bytes: seq<byte>, p: int, w: int): (v: int)
    requires w >= 1
    ensures 0 <= p && p + w <= |bytes| ==> v == DecodeSigned(bytes[p..p + w])
    ensures -SignBound(w) <= v < SignBound(w)
  {
    if 0 <= p && p + w <= |bytes| then DecodeSigned(bytes[p..p + w]) else 0
  }

  /**
   The `len` signed values of width `w` stored from `pos` on, read one after
   another: value `i` is the element `i` widths after `pos`, which lies in the
   file (`SlotBounds`).
   */
  function WindowValues(bytes: seq<byte>, pos: int, len: nat, w: int): (vs: seq<int>)
    requires pos >= 0 && w >= 1 && pos + len * w <= |bytes|
    ensures |vs| == len
    ensures forall i :: 0 <= i < len ==> vs[i] == Slot(bytes, pos + i * w, w)
    decreases len
  {
    if len == 0 then []
    else
      var last := (len - 1) * w;
      assert 0 <= last && last + w == len * w by { SlotBounds(len - 1, len, w); }
      WindowValues(bytes, pos, len - 1, w) + [Slot(bytes, pos + last, w)]
  }

  /** Value `i` of a window is the element decoded from the `w` bytes `i` widths after the window's start, which lie in the file. */
  lemma WindowValuesAt(bytes: seq<byte>, pos: int, len: nat, w: int, i: int)
    requires pos >= 0 && w >= 1 && pos + len * w <= |bytes|
    requires 0 <= i < len
    ensures 0 <= i * w && pos + i * w + w <= |bytes|
    ensures WindowValues(bytes, pos, len, w)[i] == DecodeSigned(bytes[pos + i * w..pos + i * w + w])
  {
    SlotBounds(i, len, w);
  }

  /** Slot `i` of a window of `len` slots of width `w` starts at `i * w` and ends at `(i + 1) * w`, within `len * w`. */
  lemma SlotBounds(i: int, len: int, w: int)
    requires 0 <= i < len && w >= 1
    ensures 0 <= i * w && i * w + w == (i + 1) * w <= len * w
  {
    MulMonotone(0, i, w);
    MulMonotone(i + 1, len, w);
  }

  function Abs(x: int): int {
    if x < 0 then -x else x
  }

  function MaxOf(vs: seq<int>): (m: int)
    requires |vs| >= 1
    ensures m in vs
    ensures forall i :: 0 <= i < |vs| ==> vs[i] <= m
  {
    if |vs| == 1 then vs[0]
    else
      var rest := MaxOf(vs[1..]);
      if vs[0] >= rest then vs[0] else rest
  }

  function MinOf(vs: seq<int>): (m: int)
    requires |vs| >= 1
    ensures m in vs
    ensures forall i :: 0 <= i < |vs| ==> m <= vs[i]
  {
    if |vs| == 1 then vs[0]
    else
      var rest := MinOf(vs[1..]);
      if vs[0] <= rest then vs[0] else rest
  }

  /**
   The integer thresholds, computed as the classifier computes them: reject a
   window holding a zero, one whose largest magnitude exceeds 1e10, or one
   whose spread exceeds 1e20.
   */
  predicate ValuesAccepted(vs: seq<int>)
    requires |vs| >= 1
  {
    var thereAreZeroes := 0 in vs;
    var mx := MaxOf(vs);
    var mn := MinOf(vs);
    var range := mx - mn;
    var big := if Abs(mx) >= Abs(mn) then Abs(mx) else Abs(mn);
    !(thereAreZeroes || big > IntMagnitudeLimit || range > IntRangeLimit)
  }

  /** A value an integer window may hold. */
  predicate Plausible(v: int) {
    v != 0 && -IntMagnitudeLimit <= v <= IntMagnitudeLimit
  }

  predicate AllValuesPlausible(vs: seq<int>) {
    forall i :: 0 <= i < |vs| ==> Plausible(vs[i])
  }

  /** An integer window is accepted exactly when every value is non-zero and within 1e10; the spread test never decides. */
  lemma ValuesAcceptedIff(vs: seq<int>)
    requires |vs| >= 1
    ensures ValuesAccepted(vs) <==> AllValuesPlausible(vs)
  {
    var mx := MaxOf(vs);
    var mn := MinOf(vs);
    if forall i :: 0 <= i < |vs| ==> Plausible(vs[i]) {
      assert 0 !in vs;
      assert mx - mn <= 2 * IntMagnitudeLimit;
    } else {
      var i :| 0 <= i < |vs| && !Plausible(vs[i]);
      assert vs[i] in vs;
    }
  }

  /** The availability test in product form: at least `len` whole elements of width `w` remain in `a` bytes exactly when they fit. */
  lemma WindowGuard(a: int, w: int, len: int)
    requires w >= 1 && len >= 1
    ensures Quot(a, w) >= len <==> len * w <= a
  {
    var q := Quot(a, w);
    if q >= len {
      MulMonotone(len, q, w);
    } else if a >= 0 {
      MulMonotone(q + 1, len, w);
    } else {
      MulAtLeast(len, w);
    }
  }

  /**
   The numeric classifier on the window of `len` elements of type `t` at
   byte `pos`. Only 32- and 64-bit types are classified; the window must
   fit in the file. The fit is tested as a product; `IsAOIGuard` shows it is
   the classifier's test on the quotient of the remaining size by the width.
   `IsAOIIntegers` and `IsAOIFloats` state what the thresholds decide.
   */
  function IsAOI(src: ByteSource, pos: int, t: DataType, len: int, floats: FloatOracle): (r: bool)
    requires pos >= 0 && len >= 1
    ensures t == Tchar || t == Tint8 || t == Tint16 ==> !r
    ensures r ==> WindowFits(src, pos, t, len)
  {
    if !WindowFits(src, pos, t, len) then false
    else if t == Tint8 || t == Tint16 then false
    else WindowAccepted(src, pos, t, len, floats)
  }

  /** The per-type thresholds on a window that fits; a character window is never classified. */
  predicate WindowAccepted(src: ByteSource, pos: int, t: DataType, len: nat, floats: FloatOracle)
    requires len >= 1 && WindowFits(src, pos, t, len)
  {
    match t
    case Tint32 | Tint64 => IntegerWindowAccepted(src, pos, t, len)
    case Tdouble32 | Tdouble64 => floats.accepts(t, src.bytes[pos..pos + len * Width(t)])
    case _ => false
  }

  /** The integer branch of `IsAOI`: the max/min test on the values of a fitting window. */
  predicate IntegerWindowAccepted(src: ByteSource, pos: int, t: DataType, len: nat)
    requires len >= 1 && WindowFits(src, pos, t, len)
  {
    ValuesAccepted(WindowValues(src.bytes, pos, len, Width(t)))
  }

  /** Fewer than `len` whole elements left from `pos` (C++ division) means no area of interest. */
  lemma IsAOIGuard(src: ByteSource, pos: int, t: DataType, len: int, floats: FloatOracle)
    requires pos >= 0 && len >= 1
    ensures Quot(|src.bytes| - pos, Width(t)) < len <==> !WindowFits(src, pos, t, len)
    ensures Quot(|src.bytes| - pos, Width(t)) < len ==> !IsAOI(src, pos, t, len, floats)
  {
    WindowGuard(|src.bytes| - pos, Width(t), len);
  }

  /** For 32- and 64-bit integers, a window is an area of interest exactly when it fits and all its values are plausible. */
  lemma IsAOIIntegers(src: ByteSource, pos: int, t: DataType, len: int, floats: FloatOracle)
    requires pos >= 0 && len >= 1 && (t == Tint32 || t == Tint64)
    ensures IsAOI(src, pos, t, len, floats) <==> WindowFits(src, pos, t, len) && AllPlausible(src, pos, t, len)
  {
    if WindowFits(src, pos, t, len) {
      assert IsAOI(src, pos, t, len, floats) == WindowAccepted(src, pos, t, len, floats);
      IntegerWindowAcceptedIff(src, pos, t, len);
    }
  }

  /** The max/min test on a fitting window accepts exactly when every value is plausible. */
  lemma IntegerWindowAcceptedIff(src: ByteSource, pos: int, t: DataType, len: nat)
    requires len >= 1 && WindowFits(src, pos, t, len)
    ensures IntegerWindowAccepted(src, pos, t, len) == AllPlausible(src, pos, t, len)
  {
    ValuesAcceptedIff(WindowValues(src.bytes, pos, len, Width(t)));
  }

  /** For floating-point types, a fitting window is an area of interest exactly when the float thresholds accept its bytes. */
  lemma IsAOIFloats(src: ByteSource, pos: int, t: DataType, len: int, floats: FloatOracle)
    requires pos >= 0 && len >= 1 && IsFloat(t) && WindowFits(src, pos, t, len)
    ensures IsAOI(src, pos, t, len, floats) <==> floats.accepts(t, src.bytes[pos..pos + len * Width(t)])
  {
    assert IsAOI(src, pos, t, len, floats) == WindowAccepted(src, pos, t, len, floats);
  }

  /** The window of `len` elements of type `t` at `pos` lies inside the file. */
  predicate WindowFits(src: ByteSource, pos: int, t: DataType, len: nat) {
    pos >= 0 && pos + len * Width(t) <= |src.bytes|
  }

  /** Every value of a fitting window is plausible. */
  predicate AllPlausible(src: ByteSource, pos: int, t: DataType, len: nat)
    requires WindowFits(src, pos, t, len)
  {
    AllValuesPlausible(WindowValues(src.bytes, pos, len, Width(t)))
  }

  /** A window holding a zero is never accepted for an integer type. */
  lemma ZeroRejected(src: ByteSource, pos: int, t: DataType, len: int, floats: FloatOracle, i: int)
    requires pos >= 0 && len >= 1 && (t == Tint32 || t == Tint64)
    requires WindowFits(src, pos, t, len)
    requires 0 <= i < len && WindowValues(src.bytes, pos, len, Width(t))[i] == 0
    ensures !IsAOI(src, pos, t, len, floats)
  {
    assert !Plausible(WindowValues(src.bytes, pos, len, Width(t))[i]);
    IsAOIIntegers(src, pos, t, len, floats);
  }
}

=== FILE: bytes.dfy ===
/**
 The opened file, seen as an immutable sequence of bytes plus the sticky
 fault flag of the file stream, and the fixed-width little-endian two's
 complement reads the viewer performs on it.
 */
module Bytes {

  type byte = b: int | 0 <= b < 0x100

  /** The file: its contents and whether the stream has reported a fault. */
  datatype ByteSource = ByteSource(bytes: seq<byte>, failed: bool)

  /** Outcome of a fixed-width read: the bytes read, or the stream throwing because the file ends first. */
  datatype ReadOutcome = Thrown | Read(value: seq<byte>)

  /** Reading `n` bytes at `pos`; `Thrown` where the stream would throw. */
  function ReadBytes(src: ByteSource, pos: int, n: nat): (r: ReadOutcome)
    ensures r.Read? <==> 0 <= pos && pos + n <= |src.bytes|
    ensures r.Read? ==> |r.value| == n
    ensures r.Read? ==> forall i :: 0 <= i < n ==> r.value[i] == src.bytes[pos + i]
  {
    if 0 <= pos && pos + n <= |src.bytes| then Read(src.bytes[pos..pos + n]) else Thrown
  }

  /** 256 to the power `n`: the number of values an `n`-byte word holds. */
  function Pow256(n: nat): (p: nat)
    ensures p >= 1
  {
    if n == 0 then 1 else 256 * Pow256(n - 1)
  }

  /** Half the value count of an `n`-byte word: the two's complement sign bound. */
  function SignBound(n: nat): (h: int)
    requires n >= 1
    ensures 2 * h == Pow256(n)
    ensures h >= 128
  {
    128 * Pow256(n - 1)
  }

  /** Little-endian unsigned value of a byte string (first byte least significant). */
  function DecodeUnsigned(bs: seq<byte>): (u: nat)
    ensures u < Pow256(|bs|)
  {
    if |bs| == 0 then 0 else bs[0] + 256 * DecodeUnsigned(bs[1..])
  }

  /** Little-endian two's complement value of a non-empty byte string. */
  function DecodeSigned(bs: seq<byte>): (v: int)
    requires |bs| >= 1
    ensures -SignBound(|bs|) <= v < SignBound(|bs|)
    ensures v >= 0 <==> bs[|bs| - 1] < 128
  {
    var u := DecodeUnsigned(bs);
    HighByteSign(bs);
    if u < SignBound(|bs|) then u else u - Pow256(|bs|)
  }

  /** The `n`-byte little-endian representation of `u`. */
  function EncodeUnsigned(u: nat, n: nat): (bs: seq<byte>)
    requires u < Pow256(n)
    ensures |bs| == n
  {
    if n == 0 then [] else [u % 256] + EncodeUnsigned(u / 256, n - 1)
  }

  /** The `n`-byte two's complement little-endian representation of `v`. */
  function EncodeSigned(v: int, n: nat): (bs: seq<byte>)
    requires n >= 1 && -SignBound(n) <= v < SignBound(n)
    ensures |bs| == n
  {
    EncodeUnsigned(if v < 0 then v + Pow256(n) else v, n)
  }

  /** The top byte decides whether the unsigned value reaches the sign bound. */
  lemma {:induction false} HighByteSign(bs: seq<byte>)
    requires |bs| >= 1
    ensures DecodeUnsigned(bs) < SignBound(|bs|) <==> bs[|bs| - 1] < 128
  {
    if |bs| == 1 {
      assert DecodeUnsigned(bs[1..]) == 0;
    } else {
      var rest := bs[1..];
      HighByteSign(rest);
      assert rest[|rest| - 1] == bs[|bs| - 1];
      assert SignBound(|bs|) == 256 * SignBound(|rest|);
    }
  }

  lemma {:induction false} DecodeEncodeUnsigned(u: nat, n: nat)
    requires u < Pow256(n)
    ensures DecodeUnsigned(EncodeUnsigned(u, n)) == u
  {
    if n > 0 {
      var bs := EncodeUnsigned(u, n);
      assert bs[1..] == EncodeUnsigned(u / 256, n - 1);
      DecodeEncodeUnsigned(u / 256, n - 1);
    }
  }

  lemma {:induction false} EncodeDecodeUnsigned(bs: seq<byte>)
    ensures EncodeUnsigned(DecodeUnsigned(bs), |bs|) == bs
  {
    if |bs| > 0 {
      var u := DecodeUnsigned(bs);
      var u' := DecodeUnsigned(bs[1..]);
      assert u % 256 == bs[0] && u / 256 == u';
      EncodeDecodeUnsigned(bs[1..]);
      assert bs == [bs[0]] + bs[1..];
    }
  }

  /** Decoding the encoding of an in-range value gives the value back. */
  lemma DecodeEncodeSigned(v: int, n: nat)
    requires n >= 1 && -SignBound(n) <= v < SignBound(n)
    ensures DecodeSigned(EncodeSigned(v, n)) == v
  {
    DecodeEncodeUnsigned(if v < 0 then v + Pow256(n) else v, n);
  }

  /** Encoding a decoded word reproduces its bytes: the read loses nothing. */
  lemma EncodeDecodeSigned(bs: seq<byte>)
    requires |bs| >= 1
    ensures EncodeSigned(DecodeSigned(bs), |bs|) == bs
  {
    EncodeDecodeUnsigned(bs);
  }
}

=== FILE: cells.dfy ===
/**
 The grid cell formatter: the value one column of the grid shows in a row,
 or the marker for a missing element, or the error text of a faulty file.
 */
module Cells {
  import opened CInt
  import opened Bytes
  import opened Layout

  /**
   What a grid cell displays. Floating-point cells carry their raw bytes:
   decoding IEEE-754 values is not part of this model.
   */
  datatype Cell = ErrorText | Missing | Int(value: int) | Float(raw: seq<byte>)

  /**
   The cell of column `d.column` in `row`. The offset uses the stride `sz`,
   the end-of-file test the type's own width; an element that would end at or
   after the captured size is missing, and so is one the stream cannot read.
   */
  function Format(src: ByteSource, d: BinDataSource, row: int): (c: Cell)
    requires d.Offset(row) >= 0
    ensures c.ErrorText? <==> src.failed
    ensures !src.failed && d.Offset(row) + Width(d.dtype) >= d.size ==> c.Missing?
    ensures !src.failed && d.dtype == Tchar ==> c.Missing?
    ensures !src.failed && d.dtype != Tchar && d.Offset(row) + Width(d.dtype) < d.size && d.Offset(row) + Width(d.dtype) <= |src.bytes| ==> !c.Missing?
    ensures c.Int? ==> IsInteger(d.dtype) && -SignBound(Width(d.dtype)) <= c.value < SignBound(Width(d.dtype))
    ensures c.Int? ==>
              && d.Offset(row) + Width(d.dtype) <= |src.bytes|
              && EncodeSigned(c.value, Width(d.dtype)) == src.bytes[d.Offset(row)..d.Offset(row) + Width(d.dtype)]
    ensures !src.failed && d.Offset(row) + Width(d.dtype) > |src.bytes| ==> c.Missing?
    ensures c.Float? ==>
              && IsFloat(d.dtype) && d.Offset(row) + Width(d.dtype) <= |src.bytes|
              && c.raw == src.bytes[d.Offset(row)..d.Offset(row) + Width(d.dtype)]
  {
    if src.failed then ErrorText
    else
      var pos := d.Offset(row);
      var w := Width(d.dtype);
      if pos + w >= d.size then Missing
      else match ReadBytes(src, pos, w)
        case Thrown => Missing
        case Read(bs) =>
          assert bs == src.bytes[pos..pos + w];
          if IsInteger(d.dtype) then EncodeDecodeSigned(bs); Int(DecodeSigned(bs))
          else if IsFloat(d.dtype) then Float(bs)
          else Missing
  }

  /** For an integer column over the whole file, a cell is missing exactly when its element would end at or past the size. */
  lemma MissingIffPastEnd(src: ByteSource, d: BinDataSource, row: int)
    requires !src.failed && IsInteger(d.dtype) && d.size <= |src.bytes|
    requires d.Offset(row) >= 0
    ensures Format(src, d, row).Missing? <==> d.Offset(row) + Width(d.dtype) >= d.size
  {
  }

  /** The distance from a cell's end to the captured size, in layout terms. */
  lemma EndPastSize(d: BinDataSource, row: int)
    requires d.Consistent()
    ensures d.Offset(row) + Width(d.dtype) - d.size
         == (row * d.columns + d.column + 1) * Width(d.dtype) - Usable(d.size, d.Settings(), d.dtype)
  {
    var w := Width(d.dtype);
    assert (row * d.columns + d.column + d.from) * w == (row * d.columns + d.column + 1) * w + d.from * w - w;
  }

  /** No row at or beyond the row count shows a value in any column. */
  lemma BeyondRowCountIsMissing(src: ByteSource, d: BinDataSource, row: int)
    requires !src.failed && d.Consistent()
    requires d.Settings().Valid() && 0 <= d.column < d.columns
    requires 0 <= row && RowCount(d.size, d.Settings(), d.dtype) <= row
    ensures Format(src, d, row) == Missing
  {
    EndPastSize(d, row);
    BeyondCountArith(Usable(d.size, d.Settings(), d.dtype), Width(d.dtype), d.columns,
      RowCount(d.size, d.Settings(), d.dtype), row, d.column);
    NonNegativeOffset(d, row);
  }

  lemma NonNegativeOffset(d: BinDataSource, row: int)
    requires d.Consistent() && d.Settings().Valid() && d.column >= 0 && row >= 0
    ensures d.Offset(row) >= 0
  {
    assert row * d.columns >= 0 by { MulMonotone(0, row, d.columns); }
  }

  /** Every counted row shows its first cell, except the last row when a one-column file ends exactly on an element boundary. */
  lemma CountedRowShowsFirstCell(src: ByteSource, d: BinDataSource, row: int)
    requires !src.failed && d.Consistent() && IsInteger(d.dtype) && d.size <= |src.bytes|
    requires d.Settings().Valid() && d.column == 0
    requires 0 <= row < RowCount(d.size, d.Settings(), d.dtype)
    requires !(d.columns == 1 && Usable(d.size, d.Settings(), d.dtype) % Width(d.dtype) == 0
               && row == RowCount(d.size, d.Settings(), d.dtype) - 1)
    ensures Format(src, d, row).Int?
  {
    EndPastSize(d, row);
    CountedRowArith(Usable(d.size, d.Settings(), d.dtype), Width(d.dtype), d.columns,
      RowCount(d.size, d.Settings(), d.dtype), row);
    NonNegativeOffset(d, row);
  }

  /** The extra row is added exactly when its first cell would show a value. */
  lemma ExtraRowIffFirstCellShown(src: ByteSource, d: BinDataSource)
    requires !src.failed && d.Consistent() && IsInteger(d.dtype) && d.size <= |src.bytes|
    requires d.Settings().Valid() && d.column == 0
    requires Usable(d.size, d.Settings(), d.dtype) >= 0
    ensures var full := Usable(d.size, d.Settings(), d.dtype) / (Width(d.dtype) * d.columns);
      && d.Offset(full) >= 0
      && (RowCount(d.size, d.Settings(), d.dtype) > full <==> Format(src, d, full).Int?)
  {
    var w := Width(d.dtype);
    var u := Usable(d.size, d.Settings(), d.dtype);
    var full := u / (w * d.columns);
    var rows := RowCount(d.size, d.Settings(), d.dtype);
    EndPastSize(d, full);
    ExtraRowArith(u, w, d.columns, rows);
    NonNegativeOffset(d, full);
    assert rows > full <==> d.Offset(full) + w < d.size;
    MissingIffPastEnd(src, d, full);
  }

  /**
   An element that ends exactly at the end of the file is never shown: in a
   one-column layout whose usable bytes are a whole number of elements, the
   last counted row is missing.
   */
  lemma ExactFitHidesLastElement(src: ByteSource, d: BinDataSource)
    requires !src.failed && d.Consistent()
    requires d.Settings().Valid() && d.columns == 1 && d.column == 0
    requires Usable(d.size, d.Settings(), d.dtype) > 0
    requires Usable(d.size, d.Settings(), d.dtype) % Width(d.dtype) == 0
    ensures RowCount(d.size, d.Settings(), d.dtype) >= 1
    ensures Format(src, d, RowCount(d.size, d.Settings(), d.dtype) - 1) == Missing
  {
    var w := Width(d.dtype);
    var u := Usable(d.size, d.Settings(), d.dtype);
    var q := u / w;
    assert u == q * w;
    assert q >= 1;
    EndPastSize(d, q - 1);
    NonNegativeOffset(d, q - 1);
  }
}

=== FILE: cint.dfy ===
/**
 C++ integer division. The viewer divides signed 64-bit integers with `/`,
 which truncates toward zero, whereas Dafny's `/` is Euclidean. Every divisor
 in the viewer is a positive element width or row stride, so only positive
 divisors are modelled.
 */
module CInt {

  /** `a / b` as C++ computes it: the quotient truncated toward zero. */
  function Quot(a: int, b: int): (q: int)
    requires b > 0
    ensures a >= 0 ==> 0 <= q && q * b <= a < (q + 1) * b
    ensures a < 0 ==> q <= 0 && (q - 1) * b < a <= q * b
  {
    if a >= 0 then
      EuclidBounds(a, b);
      a / b
    else
      var n := (-a) / b;
      EuclidBounds(-a, b);
      NegMul(n, b);
      NegMul(n + 1, b);
      -n
  }

  /** Bounds of the Euclidean quotient of a non-negative dividend. */
  lemma EuclidBounds(a: int, b: int)
    requires a >= 0 && b > 0
    ensures 0 <= a / b && (a / b) * b <= a < (a / b + 1) * b
  {
    var q := a / b;
    DivMod(a, b);
    assert (q + 1) * b == q * b + b;
    if q < 0 {
      MulMonotone(q, -1, b);
    }
  }

  lemma NegMul(x: int, b: int)
    ensures (-x) * b == -(x * b)
    ensures (-x - 1) * b == -(x * b) - b
  {
  }

  /** `a % b` as C++ computes it: the remainder takes the sign of `a`. */
  function Rem(a: int, b: int): (r: int)
    requires b > 0
    ensures Quot(a, b) * b + r == a
    ensures a >= 0 ==> 0 <= r < b
    ensures a < 0 ==> -b < r <= 0
  {
    a - Quot(a, b) * b
  }

  /** On a non-negative dividend the two divisions agree. */
  lemma QuotOfNonNegative(a: int, b: int)
    requires a >= 0 && b > 0
    ensures Quot(a, b) == a / b
    ensures Rem(a, b) == a % b
  {
  }

  /** The quotient is determined by any decomposition with an in-range remainder. */
  lemma DivUnique(a: int, b: int, q: int, r: int)
    requires b > 0 && 0 <= r < b && a == q * b + r
    ensures a / b == q && a % b == r
  {
    var q' := a / b;
    var r' := a % b;
    assert a == q' * b + r';
    if q' < q {
      MulAtLeast(q - q', b);
    } else if q' > q {
      MulAtLeast(q' - q, b);
    }
  }

  /** A positive multiple of `b` is at least `b`. */
  lemma MulAtLeast(k: int, b: int)
    requires k >= 1 && b > 0
    ensures k * b >= b
  {
    assert k * b == (k - 1) * b + b;
    assert (k - 1) * b >= 0;
  }

  /** Multiplying by a positive factor keeps order. */
  lemma MulMonotone(x: int, y: int, b: int)
    requires x <= y && b > 0
    ensures x * b <= y * b
  {
    assert y * b - x * b == (y - x) * b;
    assert (y - x) * b >= 0;
  }

  /** Multiplying by a positive factor keeps strict order. */
  lemma MulStrict(x: int, y: int, b: int)
    requires x < y && b > 0
    ensures x * b < y * b
  {
    MulAtLeast(y - x, b);
    assert y * b - x * b == (y - x) * b;
  }

  /** Euclidean division by a positive divisor keeps order on non-negative dividends. */
  lemma DivMonotone(a: int, b: int, d: int)
    requires 0 <= a <= b && d > 0
    ensures a / d <= b / d
  {
    if a / d > b / d {
      MulMonotone(b / d + 1, a / d, d);
    }
  }

  /** A dividend below `d * n` has a quotient below `n`. */
  lemma DivBelow(a: int, n: int, d: int)
    requires 0 <= a < d * n && d > 0
    ensures 0 <= a / d < n
  {
    if a / d >= n {
      MulMonotone(n, a / d, d);
    }
  }

  /** Euclidean division of a dividend by a positive divisor. */
  lemma DivMod(a: int, b: int)
    requires b > 0
    ensures a == (a / b) * b + a % b && 0 <= a % b < b
  {
  }

  /** Offsets of a row-major grid: `m` whole rows of `c` elements of width `w`, then `e` more elements. */
  lemma GridProduct(m: int, c: int, e: int, w: int)
    ensures (m * c + e) * w == m * (w * c) + e * w
  {
    assert (m * c + e) * w == (m * c) * w + e * w;
    assert (m * c) * w == m * (w * c);
  }
}

=== FILE: decimal.dfy ===
/**
 Decimal text of integers, the form in which the typed search looks for
 the search term inside an element's value.
 */
module Decimal {

  predicate IsDigit(c: char) {
    '0' <= c <= '9'
  }

  function DigitChar(d: int): (c: char)
    requires 0 <= d < 10
    ensures IsDigit(c)
  {
    ('0' as int + d) as char
  }

  function DigitValue(c: char): (d: int)
    requires IsDigit(c)
    ensures 0 <= d < 10
  {
    c as int - '0' as int
  }

  /** Digits of a natural number, most significant first, without leading zeros. */
  function NatText(n: nat): (s: string)
    ensures |s| >= 1
    ensures forall i :: 0 <= i < |s| ==> IsDigit(s[i])
    ensures s[0] == '0' ==> n == 0
    decreases n
  {
    if n < 10 then [DigitChar(n)] else NatText(n / 10) + [DigitChar(n % 10)]
  }

  /** Decimal text of an integer: a minus sign before the digits of a negative value. */
  function IntText(v: int): (s: string)
    ensures |s| >= 1
    ensures s[0] == '-' <==> v < 0
    ensures forall i :: 1 <= i < |s| ==> IsDigit(s[i])
  {
    if v < 0 then "-" + NatText(-v) else NatText(v)
  }

  function ParseNat(s: string): nat
    requires forall i :: 0 <= i < |s| ==> IsDigit(s[i])
  {
    if |s| == 0 then 0 else ParseNat(s[..|s| - 1]) * 10 + DigitValue(s[|s| - 1])
  }

  function ParseInt(s: string): int
    requires |s| >= 1
    requires s[0] == '-' || IsDigit(s[0])
    requires forall i :: 1 <= i < |s| ==> IsDigit(s[i])
  {
    if s[0] == '-' then 0 - ParseNat(s[1..]) else ParseNat(s)
  }

  lemma {:induction false} ParseNatText(n: nat)
    ensures ParseNat(NatText(n)) == n
    decreases n
  {
    if n >= 10 {
      var s := NatText(n);
      assert s[..|s| - 1] == NatText(n / 10);
      ParseNatText(n / 10);
    }
  }

  /** The decimal text of a value reads back as the value. */
  lemma ParseIntText(v: int)
    ensures var s := IntText(v);
      (s[0] == '-' || IsDigit(s[0])) && ParseInt(s) == v
  {
    if v < 0 {
      ParseNatText(-v);
      assert IntText(v)[1..] == NatText(-v);
    } else {
      ParseNatText(v);
    }
  }
}

=== FILE: layout.dfy ===
/**
 Element types, their byte widths, and the arithmetic that lays a file out as
 rows and columns of fixed-width elements: a byte skip `phase` applied once,
 an element skip `from`, and `columns` elements per row.
 */
module Layout {
  import opened CInt

  datatype DataType = Tchar | Tint8 | Tint16 | Tint32 | Tint64 | Tdouble32 | Tdouble64

  /** The number of element types, the enum's sentinel. */
  const DataTypeNum: nat := 7

  /** Byte width of each element type, indexed by the type's ordinal. */
  const DataSize: seq<int> := [1, 1, 2, 4, 8, 4, 8]

  /** Position of a type in the enum declaration. */
  function Ordinal(t: DataType): (i: nat)
    ensures i < DataTypeNum && i < |DataSize|
  {
    match t
    case Tchar => 0
    case Tint8 => 1
    case Tint16 => 2
    case Tint32 => 3
    case Tint64 => 4
    case Tdouble32 => 5
    case Tdouble64 => 6
  }

  /** The type with ordinal `i`, the enum cast `DataType(i)`. */
  function TypeAt(i: nat): (t: DataType)
    requires i < DataTypeNum
    ensures Ordinal(t) == i
  {
    [Tchar, Tint8, Tint16, Tint32, Tint64, Tdouble32, Tdouble64][i]
  }

  /** Element width in bytes, looked up in the width table. */
  function Width(t: DataType): (w: int)
    ensures w == 1 || w == 2 || w == 4 || w == 8
  {
    DataSize[Ordinal(t)]
  }

  predicate IsInteger(t: DataType) {
    t == Tint8 || t == Tint16 || t == Tint32 || t == Tint64
  }

  predicate IsFloat(t: DataType) {
    t == Tdouble32 || t == Tdouble64
  }

  /** Every real type is named by exactly one ordinal and the sentinel counts the table. */
  lemma OrdinalsCoverTable(t: DataType)
    ensures |DataSize| == DataTypeNum
    ensures TypeAt(Ordinal(t)) == t
  {
  }

  /** The width table, one type at a time. */
  lemma WidthTable()
    ensures Width(Tchar) == 1 && Width(Tint8) == 1 && Width(Tint16) == 2
    ensures Width(Tint32) == 4 && Width(Tint64) == 8
    ensures Width(Tdouble32) == 4 && Width(Tdouble64) == 8
  {
  }

  /** Integer and floating types of the same bit size share a width. */
  lemma EqualBitSizeEqualWidth()
    ensures Width(Tint32) == Width(Tdouble32)
    ensures Width(Tint64) == Width(Tdouble64)
  {
  }

  /** The user's layout settings: element skip, byte skip and row length. */
  datatype Config = Config(from: int, phase: int, columns: int) {
    predicate Valid() {
      from >= 0 && phase >= 0 && columns >= 1
    }
  }

  /** Byte offset of element number `k` of a layout (`from` included in `k`). */
  function ElementOffset(phase: int, w: int, k: int): int {
    phase + k * w
  }

  /** The cell formatter of one grid column: layout captured at initialisation and its stride `sz`. */
  datatype BinDataSource = BinDataSource(
    from: int, size: int, phase: int, dtype: DataType, columns: int, column: int, sz: int)
  {
    /** The stride is the width of the element type. */
    predicate Consistent() {
      sz == Width(dtype)
    }

    /** The layout settings this column was initialised with. */
    function Settings(): Config {
      Config(from, phase, columns)
    }

    /** Byte offset of this column's cell in `row`, computed with the stride `sz`. */
    function Offset(row: int): int {
      phase + (row * columns + column + from) * sz
    }
  }

  /** Capturing a layout for one column; the stride comes from the width table. */
  function Init(from: int, size: int, phase: int, dtype: DataType, columns: int, column: int): (d: BinDataSource)
    ensures d.Consistent()
    ensures d.from == from && d.size == size && d.phase == phase
    ensures d.dtype == dtype && d.columns == columns && d.column == column
  {
    BinDataSource(from, size, phase, dtype, columns, column, Width(dtype))
  }

  /** Bytes left for the grid after the byte skip and the element skip. */
  function Usable(size: int, cfg: Config, t: DataType): int {
    size - cfg.phase - cfg.from * Width(t)
  }

  /**
   Number of grid rows shown for a type: the full rows that fit in the usable
   bytes, plus one more only when the leftover exceeds one element.
   */
  function RowCount(size: int, cfg: Config, t: DataType): (rows: int)
    requires cfg.columns >= 1
    ensures var u := Usable(size, cfg, t); var stride := Width(t) * cfg.columns;
      u >= 0 ==> rows == u / stride + (if u % stride > Width(t) then 1 else 0)
    ensures Usable(size, cfg, t) < 0 ==> rows <= 0
  {
    var w := Width(t);
    var usable := Usable(size, cfg, t);
    var rows := Quot(usable, w * cfg.columns);
    var diff := usable - rows * w * cfg.columns;
    LeftoverIsRem(usable, w, cfg.columns);
    if diff > w then rows + 1 else rows
  }

  /** The leftover after the whole rows is the C++ remainder by the row stride. */
  lemma LeftoverIsRem(a: int, w: int, c: int)
    requires w > 0 && c >= 1
    ensures w * c > 0
    ensures a >= 0 ==> Quot(a, w * c) == a / (w * c) && a - Quot(a, w * c) * w * c == a % (w * c)
    ensures a < 0 ==> a - Quot(a, w * c) * w * c <= 0
  {
    MulAtLeast(c, w);
    var q := Quot(a, w * c);
    assert q * w * c == q * (w * c);
    assert Rem(a, w * c) == a - q * (w * c);
    if a >= 0 {
      QuotOfNonNegative(a, w * c);
    }
  }

  /** The row a byte offset falls in: the inverse mapping the searches report. */
  function RowOf(byteOffset: int, cfg: Config, t: DataType): int
    requires cfg.columns >= 1
  {
    Quot(byteOffset - cfg.phase - cfg.from * Width(t), cfg.columns * Width(t))
  }

  /** The offset of cell (`row`, `column`) of a configuration. */
  function CellOffset(cfg: Config, t: DataType, row: int, column: int): int {
    ElementOffset(cfg.phase, Width(t), row * cfg.columns + column + cfg.from)
  }

  /** A data source built by `Init` addresses exactly the cells of its configuration. */
  lemma InitOffset(cfg: Config, size: int, t: DataType, column: int, row: int)
    ensures Init(cfg.from, size, cfg.phase, t, cfg.columns, column).Offset(row) == CellOffset(cfg, t, row, column)
  {
  }

  /** Neighbours in a row are one element apart; vertically adjacent cells one row stride apart. */
  lemma NeighbourOffsets(cfg: Config, t: DataType, row: int, column: int)
    ensures CellOffset(cfg, t, row, column + 1) == CellOffset(cfg, t, row, column) + Width(t)
    ensures CellOffset(cfg, t, row + 1, column) == CellOffset(cfg, t, row, column) + cfg.columns * Width(t)
  {
    var w := Width(t);
    assert (row * cfg.columns + column + 1 + cfg.from) * w == (row * cfg.columns + column + cfg.from) * w + w;
    assert ((row + 1) * cfg.columns + column + cfg.from) * w
        == (row * cfg.columns + column + cfg.from) * w + cfg.columns * w;
  }

  /** Row-major order: a later cell lies at a strictly larger offset. */
  lemma OffsetsRowMajor(cfg: Config, t: DataType, r1: int, c1: int, r2: int, c2: int)
    requires cfg.columns >= 1
    requires 0 <= c1 < cfg.columns && 0 <= c2 < cfg.columns
    requires r1 < r2 || (r1 == r2 && c1 < c2)
    ensures CellOffset(cfg, t, r1, c1) < CellOffset(cfg, t, r2, c2)
  {
    var k1 := r1 * cfg.columns + c1;
    var k2 := r2 * cfg.columns + c2;
    if r1 < r2 {
      MulMonotone(r1 + 1, r2, cfg.columns);
      assert (r1 + 1) * cfg.columns == r1 * cfg.columns + cfg.columns;
    }
    assert k1 < k2;
    MulStrict(k1 + cfg.from, k2 + cfg.from, Width(t));
  }

  /** Element `k` lies in row `(k - from) / columns`. */
  lemma RowOfElement(cfg: Config, t: DataType, k: int)
    requires cfg.columns >= 1 && k >= cfg.from
    ensures RowOf(ElementOffset(cfg.phase, Width(t), k), cfg, t) == (k - cfg.from) / cfg.columns
  {
    var w := Width(t);
    var j := k - cfg.from;
    assert ElementOffset(cfg.phase, w, k) - cfg.phase - cfg.from * w == j * w by {
      assert k * w == (cfg.from + j) * w == cfg.from * w + j * w;
    }
    ScaledQuot(j, cfg.columns, w);
    QuotOfNonNegative(j * w, cfg.columns * w);
  }

  /** Scaling dividend and divisor by the same width keeps the quotient. */
  lemma ScaledQuot(j: int, c: int, w: int)
    requires j >= 0 && c >= 1 && w >= 1
    ensures j * w >= 0 && c * w > 0
    ensures (j * w) / (c * w) == j / c
  {
    var q := j / c;
    var r := j % c;
    DivMod(j, c);
    assert j * w == q * (w * c) + r * w by { GridProduct(q, c, r, w); }
    assert w * c == c * w;
    MulStrict(r, c, w);
    MulMonotone(0, r, w);
    MulMonotone(0, j, w);
    MulAtLeast(c, w);
    DivUnique(j * w, c * w, q, r * w);
  }

  /** Mapping a cell's offset back to a row recovers the cell's row. */
  lemma RowOfCell(cfg: Config, t: DataType, row: int, column: int)
    requires cfg.columns >= 1 && row >= 0 && 0 <= column < cfg.columns
    ensures RowOf(CellOffset(cfg, t, row, column), cfg, t) == row
  {
    var k := row * cfg.columns + column + cfg.from;
    RowOfElement(cfg, t, k);
    DivUnique(row * cfg.columns + column, cfg.columns, row, column);
  }

  /**
   Arithmetic behind the row count, over plain integers: `u` usable bytes,
   width `w`, `c` columns, `rows` as the row count computes it.
   */
  lemma BeyondCountArith(u: int, w: int, c: int, rows: int, row: int, column: int)
    requires w > 0 && c >= 1 && 0 <= column < c && 0 <= row
    requires u >= 0 ==> rows == u / (w * c) + (if u % (w * c) > w then 1 else 0)
    requires u < 0 ==> rows <= 0
    requires rows <= row
    ensures (row * c + column + 1) * w >= u
  {
    var k := row * c + column + 1;
    MulMonotone(0, row, c);
    if u >= 0 {
      var s := w * c;
      var q := u / s;
      var rem := u % s;
      DivMod(u, s);
      var m := if rem > w then q + 1 else q;
      MulMonotone(m, row, c);
      MulMonotone(m * c + 1, k, w);
      GridProduct(m, c, 1, w);
      assert (m * c + 1) * w == m * s + w;
      if rem > w {
        assert m * s == q * s + s;
      }
    } else {
      MulAtLeast(k, w);
    }
  }

  lemma CountedRowArith(u: int, w: int, c: int, rows: int, row: int)
    requires w > 0 && c >= 1 && 0 <= row < rows
    requires u >= 0 ==> rows == u / (w * c) + (if u % (w * c) > w then 1 else 0)
    requires u < 0 ==> rows <= 0
    requires !(c == 1 && u % w == 0 && row == rows - 1)
    ensures (row * c + 1) * w < u
  {
    assert u >= 0;
    var s := w * c;
    var q := u / s;
    var rem := u % s;
    DivMod(u, s);
    if row < q {
      WholeRowArith(s, q, rem, w, c, row);
    } else {
      assert row == q && rem > w;
      GridProduct(q, c, 1, w);
    }
  }

  /** A row before the last whole row, or the last whole row unless it is a one-column exact fit, ends strictly inside `q` rows plus `rem` bytes. */
  lemma WholeRowArith(s: int, q: int, rem: int, w: int, c: int, row: int)
    requires w > 0 && c >= 1 && s == w * c && 0 <= rem < s && 0 <= row < q
    requires !(c == 1 && rem == 0 && row == q - 1)
    ensures (row * c + 1) * w < q * s + rem
  {
    var m := if c == 1 && rem == 0 then q - 2 else q - 1;
    assert c == 1 ==> s == w;
    assert row <= m;
    MulMonotone(row, m, c);
    MulMonotone(row * c + 1, m * c + 1, w);
    GridProduct(m, c, 1, w);
    assert (m * c + 1) * w == m * s + w;
    if c == 1 && rem == 0 {
      assert m * s == q * s - s - s;
    } else {
      assert m * s == q * s - s;
      if c != 1 {
        MulMonotone(2, c, w);
      }
    }
  }

  lemma ExtraRowArith(u: int, w: int, c: int, rows: int)
    requires w > 0 && c >= 1 && u >= 0
    requires rows == u / (w * c) + (if u % (w * c) > w then 1 else 0)
    ensures u / (w * c) >= 0
    ensures rows > u / (w * c) <==> (u / (w * c) * c + 1) * w < u
  {
    MulAtLeast(c, w);
    var s := w * c;
    var q := u / s;
    assert u == q * s + u % s;
    assert (q * c + 1) * w == q * s + w;
  }

  /** An element that ends before the usable bytes run out lies in a counted row. */
  lemma ElementRowArith(u: int, w: int, c: int, rows: int, row0: int, j: int)
    requires w > 0 && c >= 1 && row0 >= 0 && row0 * c <= j
    requires u >= 0 ==> rows == u / (w * c) + (if u % (w * c) > w then 1 else 0)
    requires u < 0 ==> rows <= 0
    requires j * w + w < u
    ensures row0 <= j / c < rows
  {
    var row := j / c;
    var col := j % c;
    assert j == row * c + col;
    if row < row0 {
      MulMonotone(row + 1, row0, c);
    }
    if row >= rows {
      assert (row * c + col + 1) * w == j * w + w;
      BeyondCountArith(u, w, c, rows, row, col);
    }
  }
}

=== FILE: scan.dfy ===
/**
 The whole-file AOI scan: which window offsets are tested, and how many of
 them the numeric classifier accepts.
 */
module Scan {
  import opened CInt
  import opened Bytes
  import opened Layout
  import opened Aoi

  /** At most this many offsets are tested; below it the scan is exhaustive. */
  const SampleBudget: int := 1000

  /** With fewer candidates than this nothing is tested. */
  const MinCandidates: int := 10

  /** Number of candidate window starts: whole elements after the skips, less one window. */
  function CandidateCount(size: int, phase: int, from: int, t: DataType): int {
    Quot(size - phase, Width(t)) - from - WindowLength
  }

  /**
   The byte offsets the scan tests: none for too few candidates; every
   candidate element when there are fewer than the budget; otherwise the
   budget's worth of offsets spread over `num` bytes from `phase`, neither
   scaled by the element width nor shifted by `from`.
   */
  function ScanOffsets(size: int, phase: int, from: int, t: DataType): (offs: seq<int>)
    ensures var num := CandidateCount(size, phase, from, t);
      && (num < MinCandidates ==> |offs| == 0)
      && (MinCandidates <= num < SampleBudget ==> |offs| == num)
      && (num >= SampleBudget ==> |offs| == SampleBudget)
  {
    var num := CandidateCount(size, phase, from, t);
    var w := Width(t);
    if num < MinCandidates then []
    else if num < SampleBudget then seq(num, i => phase + (from + i) * w)
    else seq(SampleBudget, i => phase + (num * i) / SampleBudget)
  }

  /** Exhaustive offsets are one element apart and strictly increasing, starting at element `from`. */
  lemma ExhaustiveOffsets(size: int, phase: int, from: int, t: DataType)
    requires MinCandidates <= CandidateCount(size, phase, from, t) < SampleBudget
    ensures var offs := ScanOffsets(size, phase, from, t);
      && offs[0] == ElementOffset(phase, Width(t), from)
      && (forall i :: 0 <= i < |offs| - 1 ==> offs[i + 1] == offs[i] + Width(t))
      && (forall i, j :: 0 <= i < j < |offs| ==> offs[i] < offs[j])
  {
    var offs := ScanOffsets(size, phase, from, t);
    var w := Width(t);
    forall i | 0 <= i < |offs| - 1
      ensures offs[i + 1] == offs[i] + w
    {
      assert (from + i + 1) * w == (from + i) * w + w;
    }
    forall i, j | 0 <= i < j < |offs|
      ensures offs[i] < offs[j]
    {
      MulStrict(from + i, from + j, w);
    }
  }

  /** Sampled offsets start at `phase`, never decrease, and stay below `phase + num`. */
  lemma SampledOffsets(size: int, phase: int, from: int, t: DataType)
    requires CandidateCount(size, phase, from, t) >= SampleBudget
    ensures var offs := ScanOffsets(size, phase, from, t);
      var num := CandidateCount(size, phase, from, t);
      && offs[0] == phase
      && (forall i, j :: 0 <= i <= j < |offs| ==> offs[i] <= offs[j])
      && (forall i :: 0 <= i < |offs| ==> phase <= offs[i] < phase + num)
  {
    var offs := ScanOffsets(size, phase, from, t);
    var num := CandidateCount(size, phase, from, t);
    forall i, j | 0 <= i <= j < |offs|
      ensures offs[i] <= offs[j]
    {
      MulMonotone(i, j, num);
      assert num * i == i * num && num * j == j * num;
      DivMonotone(num * i, num * j, SampleBudget);
    }
    forall i | 0 <= i < |offs|
      ensures phase <= offs[i] < phase + num
    {
      MulMonotone(0, i, num);
      MulStrict(i, SampleBudget, num);
      assert num * i == i * num;
      DivBelow(num * i, num, SampleBudget);
    }
  }

  /** In an exhaustive scan every tested window lies wholly inside the file. */
  lemma ExhaustiveWindowsFit(src: ByteSource, phase: int, from: int, t: DataType)
    requires phase >= 0 && from >= 0
    requires MinCandidates <= CandidateCount(|src.bytes|, phase, from, t) < SampleBudget
    ensures var offs := ScanOffsets(|src.bytes|, phase, from, t);
      forall i :: 0 <= i < |offs| ==> WindowFits(src, offs[i], t, WindowLength)
  {
    var offs := ScanOffsets(|src.bytes|, phase, from, t);
    var w := Width(t);
    var q := Quot(|src.bytes| - phase, w);
    forall i | 0 <= i < |offs|
      ensures WindowFits(src, offs[i], t, WindowLength)
    {
      assert from + i + WindowLength <= q;
      MulMonotone(from + i + WindowLength, q, w);
      assert (from + i + WindowLength) * w == (from + i) * w + WindowLength * w;
      MulMonotone(0, from + i, w);
    }
  }

  /** How many of `offs` the classifier accepts, counted from the front. */
  function CountAccepted(src: ByteSource, offs: seq<int>, t: DataType, floats: FloatOracle): (n: nat)
    requires forall i :: 0 <= i < |offs| ==> offs[i] >= 0
    ensures n <= |offs|
  {
    if |offs| == 0 then 0
    else
      var last := offs[|offs| - 1];
      CountAccepted(src, offs[..|offs| - 1], t, floats) + (if IsAOI(src, last, t, WindowLength, floats) then 1 else 0)
  }

  /**
   The scan: builds the offsets to test and counts the windows the
   classifier accepts. The count is what the viewer reports.
   */
  method ScanAOIs(src: ByteSource, phase: int, from: int, t: DataType, floats: FloatOracle)
    returns (tested: seq<int>, found: nat)
    requires phase >= 0 && from >= 0
    ensures tested == ScanOffsets(|src.bytes|, phase, from, t)
    ensures forall i :: 0 <= i < |tested| ==> tested[i] >= phase
    ensures found == CountAccepted(src, tested, t, floats)
    ensures found <= |tested|
  {
    tested := ScanOffsets(|src.bytes|, phase, from, t);
    NonNegativeOffsets(|src.bytes|, phase, from, t);
    found := CountWindows(src, tested, t, floats);
  }

  /** Classifies each offset in turn and counts the accepted windows. */
  method CountWindows(src: ByteSource, offs: seq<int>, t: DataType, floats: FloatOracle) returns (found: nat)
    requires forall i :: 0 <= i < |offs| ==> offs[i] >= 0
    ensures found == CountAccepted(src, offs, t, floats)
  {
    found := 0;
    var i := 0;
    while i < |offs|
      invariant 0 <= i <= |offs|
      invariant found == CountAccepted(src, offs[..i], t, floats)
    {
      assert offs[..i + 1][..i] == offs[..i];
      if IsAOI(src, offs[i], t, WindowLength, floats) {
        found := found + 1;
      }
      i := i + 1;
    }
    assert offs[..|offs|] == offs;
  }

  lemma NonNegativeOffsets(size: int, phase: int, from: int, t: DataType)
    requires phase >= 0 && from >= 0
    ensures var offs := ScanOffsets(size, phase, from, t);
      forall i :: 0 <= i < |offs| ==> offs[i] >= phase
  {
    var offs := ScanOffsets(size, phase, from, t);
    var num := CandidateCount(size, phase, from, t);
    forall i | 0 <= i < |offs|
      ensures offs[i] >= phase
    {
      if num < SampleBudget {
        MulMonotone(0, from + i, Width(t));
      } else {
        MulMonotone(0, i, num);
        assert num * i == i * num;
      }
    }
  }
}

=== FILE: search.dfy ===
/**
 The forward sweeps: searching the text view or a typed column for a term,
 and stepping to the next area of interest.
 */
module Search {
  import opened CInt
  import opened Bytes
  import opened Layout
  import opened TextView
  import opened Aoi
  import opened Decimal

  /**
   Outcome of a sweep: no term was given, nothing was found, or the text
   position or grid row where the sweep stopped.
   */
  datatype SearchResult = NoTerm | NotFound | Found(at: int)

  /** `term` occurs in `text` starting at `p`. */
  predicate OccursAt(text: string, term: string, p: int) {
    0 <= p && p + |term| <= |text| && text[p..p + |term|] == term
  }

  /** `term` occurs somewhere in `s`. */
  predicate Contains(s: string, term: string) {
    exists p :: 0 <= p <= |s| && OccursAt(s, term, p)
  }

  /**
   Text search: the first position of the text view where the term occurs,
   scanning from the start of the text whatever the cursor is.
   */
  method SearchText(text: string, term: string, cursor: int) returns (r: SearchResult)
    requires |term| > 0
    ensures r.Found? || r.NotFound?
    ensures r.Found? ==> 0 <= r.at < |text| && OccursAt(text, term, r.at)
    ensures r.Found? ==> forall p :: 0 <= p < r.at ==> !OccursAt(text, term, p)
    ensures r.NotFound? ==> forall p :: 0 <= p < |text| ==> !OccursAt(text, term, p)
  {
    var p := 0;
    while p < |text|
      invariant 0 <= p <= |text|
      invariant forall q :: 0 <= q < p ==> !OccursAt(text, term, q)
    {
      if p + |term| <= |text| && text[p..p + |term|] == term {
        return Found(p);
      }
      p := p + 1;
    }
    return NotFound;
  }

  /** A window of `WindowLength` token characters starts at `p`. */
  predicate TokenWindowAt(text: string, p: int) {
    0 <= p && p + WindowLength <= |text| && IsTextAOI(text[p..p + WindowLength])
  }

  /**
   The first position a sweep that resumes after a cursor examines: the one
   after the cursor, or 0 when there is no cursor (a negative one). The text
   next-AOI sweep uses it for text positions, the typed search for rows.
   */
  function NextAfter(cursor: int): (p: int)
    ensures p >= 0 && p > cursor
    ensures cursor >= 0 ==> p == cursor + 1
    ensures cursor < 0 ==> p == 0
  {
    if cursor < 0 then 0 else cursor + 1
  }

  /**
   Next area of interest in the text view: the first position after the
   cursor where ten token characters start, among the positions whose
   window ends strictly before the end of the text.
   */
  method NextAoiText(text: string, cursor: int) returns (r: SearchResult)
    ensures r.Found? || r.NotFound?
    ensures r.Found? ==> NextAfter(cursor) <= r.at && r.at + WindowLength < |text|
    ensures r.Found? ==> TokenWindowAt(text, r.at)
    ensures r.Found? ==> forall p :: NextAfter(cursor) <= p < r.at ==> !TokenWindowAt(text, p)
    ensures r.NotFound? ==>
              forall p :: NextAfter(cursor) <= p && p + WindowLength < |text| ==> !TokenWindowAt(text, p)
  {
    var p := NextAfter(cursor);
    while p + WindowLength < |text|
      invariant NextAfter(cursor) <= p
      invariant forall q :: NextAfter(cursor) <= q < p ==> !TokenWindowAt(text, q)
      decreases |text| - p
    {
      if IsTextAOI(text[p..p + WindowLength]) {
        return Found(p);
      }
      p := p + 1;
    }
    return NotFound;
  }

  /** Element `k` of the layout can be read: it ends strictly before the end of the file. */
  predicate ElementInFile(src: ByteSource, cfg: Config, t: DataType, k: int) {
    var pos := ElementOffset(cfg.phase, Width(t), k);
    0 <= pos && pos + Width(t) < |src.bytes|
  }

  /** Text of element `k`: decimal for integers (`ElementTextDecimal`), the oracle's text for floating point. */
  function ElementText(src: ByteSource, cfg: Config, t: DataType, k: int, floats: FloatOracle): string
    requires ElementInFile(src, cfg, t, k)
  {
    var pos := ElementOffset(cfg.phase, Width(t), k);
    var bs := src.bytes[pos..pos + Width(t)];
    if IsInteger(t) then IntText(DecodeSigned(bs)) else floats.text(t, bs)
  }

  /** An integer element's text is an optional minus sign and digits that read back as the element's value. */
  lemma ElementTextDecimal(src: ByteSource, cfg: Config, t: DataType, k: int, floats: FloatOracle)
    requires ElementInFile(src, cfg, t, k) && IsInteger(t)
    ensures var s := ElementText(src, cfg, t, k, floats);
              && |s| >= 1 && (s[0] == '-' || IsDigit(s[0]))
              && (forall i :: 1 <= i < |s| ==> IsDigit(s[i]))
              && ParseInt(s) == DecodeSigned(src.bytes[ElementOffset(cfg.phase, Width(t), k)..ElementOffset(cfg.phase, Width(t), k) + Width(t)])
  {
    var pos := ElementOffset(cfg.phase, Width(t), k);
    ParseIntText(DecodeSigned(src.bytes[pos..pos + Width(t)]));
  }

  /** Element `k` is readable and its text contains the term. */
  predicate ElementMatches(src: ByteSource, cfg: Config, t: DataType, k: int, term: string, floats: FloatOracle) {
    ElementInFile(src, cfg, t, k) && Contains(ElementText(src, cfg, t, k, floats), term)
  }

  /** The first row the typed next-AOI sweep examines: never row 0. */
  function AoiStartRow(cursor: int): (row: int)
    ensures row >= 1 && row > cursor
    ensures row == NextAfter(cursor) + (if cursor < 0 then 1 else 0)
  {
    (if cursor < 0 then 0 else cursor) + 1
  }

  /** The element index of column 0 of `row`. */
  function FirstElement(cfg: Config, row: int): int {
    row * cfg.columns + cfg.from
  }

  /** Element offsets grow with the element index. */
  lemma ElementOffsetMonotone(phase: int, w: int, k: int, k': int)
    requires w > 0 && k <= k'
    ensures ElementOffset(phase, w, k) <= ElementOffset(phase, w, k')
  {
    MulMonotone(k, k', w);
  }

  /**
   An element that ends inside the file belongs to a row the grid shows, and
   a sweep that starts at column 0 of `row0` reports a row no earlier than `row0`.
   */
  lemma FoundRowBounds(size: int, cfg: Config, t: DataType, row0: int, k: int)
    requires cfg.Valid() && row0 >= 0 && FirstElement(cfg, row0) <= k
    requires ElementOffset(cfg.phase, Width(t), k) + Width(t) < size
    ensures row0 <= RowOf(ElementOffset(cfg.phase, Width(t), k), cfg, t) < RowCount(size, cfg, t)
  {
    var w := Width(t);
    var j := k - cfg.from;
    RowOfElement(cfg, t, k);
    assert k * w == (cfg.from + j) * w == cfg.from * w + j * w;
    assert ElementOffset(cfg.phase, w, k) + w - size == j * w + w - Usable(size, cfg, t);
    ElementRowArith(Usable(size, cfg, t), w, cfg.columns, RowCount(size, cfg, t), row0, j);
  }

  /**
   Typed search: from column 0 of the row after the cursor, each element in
   turn (not only column 0) until one would end at or past the end of the
   file; the result is the row of the first element whose text contains the term.
   */
  method SearchTyped(src: ByteSource, cfg: Config, t: DataType, term: string, cursor: int, floats: FloatOracle)
    returns (r: SearchResult)
    requires cfg.Valid() && t != Tchar && |term| > 0
    ensures r.Found? || r.NotFound?
    ensures NextAfter(cursor) >= RowCount(|src.bytes|, cfg, t) ==> r.NotFound?
    ensures r.Found? ==> cursor < r.at < RowCount(|src.bytes|, cfg, t)
    ensures r.Found? ==>
              exists k :: FirstElement(cfg, NextAfter(cursor)) <= k
                && ElementMatches(src, cfg, t, k, term, floats)
                && r.at == RowOf(ElementOffset(cfg.phase, Width(t), k), cfg, t)
                && forall j :: FirstElement(cfg, NextAfter(cursor)) <= j < k ==> !ElementMatches(src, cfg, t, j, term, floats)
    ensures r.NotFound? && NextAfter(cursor) < RowCount(|src.bytes|, cfg, t) ==>
              forall k :: FirstElement(cfg, NextAfter(cursor)) <= k ==> !ElementMatches(src, cfg, t, k, term, floats)
  {
    var row := NextAfter(cursor);
    if row >= RowCount(|src.bytes|, cfg, t) {
      return NotFound;
    }
    var k0 := FirstElement(cfg, row);
    assert k0 >= 0 by { MulMonotone(0, row, cfg.columns); }
    var found, k := FirstMatchingElement(src, cfg, t, term, floats, k0);
    if found {
      FoundRowBounds(|src.bytes|, cfg, t, row, k);
      return Found(RowOf(ElementOffset(cfg.phase, Width(t), k), cfg, t));
    }
    return NotFound;
  }

  /** The element loop of the typed search, from element `k0` on. */
  method FirstMatchingElement(src: ByteSource, cfg: Config, t: DataType, term: string, floats: FloatOracle, k0: int)
    returns (found: bool, k: int)
    requires cfg.Valid() && k0 >= 0
    ensures found ==> k0 <= k && ElementMatches(src, cfg, t, k, term, floats)
    ensures found ==> forall j :: k0 <= j < k ==> !ElementMatches(src, cfg, t, j, term, floats)
    ensures !found ==> forall j :: k0 <= j ==> !ElementMatches(src, cfg, t, j, term, floats)
  {
    var w := Width(t);
    ElementOffsetMonotone(cfg.phase, w, 0, k0);
    var hit := j => ElementMatches(src, cfg, t, j, term, floats);
    found, k := FirstHit(cfg.phase, w, w, |src.bytes|, k0, hit);
    forall j | k0 <= j < k
      ensures !ElementMatches(src, cfg, t, j, term, floats)
    {
      assert !hit(j);
    }
    if found {
      assert hit(k);
    } else {
      NoMatchBeyond(src, cfg, t, term, floats, k0, k);
    }
  }

  /**
   The element loop both typed sweeps share: from element `k0`, while the
   `span` bytes from the element's offset end strictly before byte `size`,
   stop at the first element `hit` accepts; the offset steps by one width.
   */
  method FirstHit(phase: int, w: int, span: int, size: int, k0: int, hit: int -> bool)
    returns (found: bool, k: int)
    requires 1 <= w <= span && ElementOffset(phase, w, k0) >= 0
    ensures k0 <= k && ElementOffset(phase, w, k) >= 0
    ensures found ==> hit(k) && ElementOffset(phase, w, k) + span < size
    ensures !found ==> ElementOffset(phase, w, k) + span >= size
    ensures forall j :: k0 <= j < k ==> !hit(j)
  {
    k := k0;
    var pos := ElementOffset(phase, w, k);
    while pos + span < size
      invariant k0 <= k && pos == ElementOffset(phase, w, k) && pos >= 0
      invariant forall j :: k0 <= j < k ==> !hit(j)
      decreases size - pos
    {
      if hit(k) {
        return true, k;
      }
      k := k + 1;
      pos := pos + w;
    }
    return false, k;
  }

  /** The window of ten elements starting at element `k` ends strictly before the end of the file. */
  predicate WindowInSweep(src: ByteSource, cfg: Config, t: DataType, k: int) {
    var pos := ElementOffset(cfg.phase, Width(t), k);
    0 <= pos && pos + Width(t) * WindowLength < |src.bytes|
  }

  /** The sweep accepts the window starting at element `k`. */
  predicate AoiAt(src: ByteSource, cfg: Config, t: DataType, k: int, floats: FloatOracle) {
    WindowInSweep(src, cfg, t, k)
      && IsAOI(src, ElementOffset(cfg.phase, Width(t), k), t, WindowLength, floats)
  }

  /**
   Typed next-AOI sweep: from column 0 of the row after the cursor (row 1
   at the earliest), every element offset in turn, while a window of ten
   elements ends strictly before the end of the file; the result is the row
   of the first accepted window.
   */
  method NextAoiTyped(src: ByteSource, cfg: Config, t: DataType, cursor: int, floats: FloatOracle)
    returns (r: SearchResult)
    requires cfg.Valid() && t != Tchar
    ensures r.Found? || r.NotFound?
    ensures AoiStartRow(cursor) >= RowCount(|src.bytes|, cfg, t) ==> r.NotFound?
    ensures r.Found? ==> 1 <= r.at && cursor < r.at < RowCount(|src.bytes|, cfg, t)
    ensures r.Found? ==>
              exists k :: FirstElement(cfg, AoiStartRow(cursor)) <= k
                && AoiAt(src, cfg, t, k, floats)
                && r.at == RowOf(ElementOffset(cfg.phase, Width(t), k), cfg, t)
                && forall j :: FirstElement(cfg, AoiStartRow(cursor)) <= j < k ==> !AoiAt(src, cfg, t, j, floats)
    ensures r.NotFound? && AoiStartRow(cursor) < RowCount(|src.bytes|, cfg, t) ==>
              forall k :: FirstElement(cfg, AoiStartRow(cursor)) <= k ==> !AoiAt(src, cfg, t, k, floats)
  {
    var row := AoiStartRow(cursor);
    if row >= RowCount(|src.bytes|, cfg, t) {
      return NotFound;
    }
    var k0 := FirstElement(cfg, row);
    assert k0 >= 0 by { MulMonotone(0, row, cfg.columns); }
    var found, k := FirstAoiElement(src, cfg, t, floats, k0);
    if found {
      FoundRowBounds(|src.bytes|, cfg, t, row, k);
      return Found(RowOf(ElementOffset(cfg.phase, Width(t), k), cfg, t));
    }
    return NotFound;
  }

  /** The element loop of the typed next-AOI sweep, from element `k0` on. */
  method FirstAoiElement(src: ByteSource, cfg: Config, t: DataType, floats: FloatOracle, k0: int)
    returns (found: bool, k: int)
    requires cfg.Valid() && k0 >= 0
    ensures found ==> k0 <= k && AoiAt(src, cfg, t, k, floats)
    ensures found ==> forall j :: k0 <= j < k ==> !AoiAt(src, cfg, t, j, floats)
    ensures !found ==> forall j :: k0 <= j ==> !AoiAt(src, cfg, t, j, floats)
  {
    var w := Width(t);
    ElementOffsetMonotone(cfg.phase, w, 0, k0);
    var hit := j => AoiAt(src, cfg, t, j, floats);
    found, k := FirstHit(cfg.phase, w, w * WindowLength, |src.bytes|, k0, hit);
    forall j | k0 <= j < k
      ensures !AoiAt(src, cfg, t, j, floats)
    {
      assert !hit(j);
    }
    if found {
      assert hit(k);
    } else {
      NoAoiBeyond(src, cfg, t, floats, k0, k);
    }
  }

  /** Once element `k` no longer fits in the file, no later element matches either. */
  lemma NoMatchBeyond(src: ByteSource, cfg: Config, t: DataType, term: string, floats: FloatOracle, k0: int, k: int)
    requires k0 <= k && ElementOffset(cfg.phase, Width(t), k) + Width(t) >= |src.bytes|
    requires forall j :: k0 <= j < k ==> !ElementMatches(src, cfg, t, j, term, floats)
    ensures forall j :: k0 <= j ==> !ElementMatches(src, cfg, t, j, term, floats)
  {
    forall j | k <= j
      ensures !ElementInFile(src, cfg, t, j)
    {
      ElementOffsetMonotone(cfg.phase, Width(t), k, j);
    }
  }

  /** Once the window at element `k` no longer fits in the file, no later window is accepted either. */
  lemma NoAoiBeyond(src: ByteSource, cfg: Config, t: DataType, floats: FloatOracle, k0: int, k: int)
    requires k0 <= k && ElementOffset(cfg.phase, Width(t), k) + Width(t) * WindowLength >= |src.bytes|
    requires forall j :: k0 <= j < k ==> !AoiAt(src, cfg, t, j, floats)
    ensures forall j :: k0 <= j ==> !AoiAt(src, cfg, t, j, floats)
  {
    forall j | k <= j
      ensures !WindowInSweep(src, cfg, t, j)
    {
      ElementOffsetMonotone(cfg.phase, Width(t), k, j);
    }
  }

  /**
   The search command: an empty term is refused; the text tab searches the
   text view, the other tabs their typed column.
   */
  method Search(src: ByteSource, cfg: Config, tab: DataType, term: string, cursor: int, floats: FloatOracle)
    returns (r: SearchResult)
    requires cfg.Valid()
    ensures r.NoTerm? <==> |term| == 0
    ensures tab == Tchar && r.Found? ==>
              var text := ViewText(src, cfg.from, cfg.phase);
              && OccursAt(text, term, r.at)
              && forall p :: 0 <= p < r.at ==> !OccursAt(text, term, p)
    ensures tab == Tchar && r.NotFound? ==>
              var text := ViewText(src, cfg.from, cfg.phase);
              forall p :: 0 <= p < |text| ==> !OccursAt(text, term, p)
    ensures tab != Tchar && r.Found? ==> cursor < r.at < RowCount(|src.bytes|, cfg, tab)
    ensures tab != Tchar && r.Found? ==>
              exists k :: FirstElement(cfg, NextAfter(cursor)) <= k
                && ElementMatches(src, cfg, tab, k, term, floats)
                && r.at == RowOf(ElementOffset(cfg.phase, Width(tab), k), cfg, tab)
                && forall j :: FirstElement(cfg, NextAfter(cursor)) <= j < k ==> !ElementMatches(src, cfg, tab, j, term, floats)
    ensures tab != Tchar && |term| > 0 && NextAfter(cursor) >= RowCount(|src.bytes|, cfg, tab) ==> r.NotFound?
    ensures tab != Tchar && r.NotFound? && NextAfter(cursor) < RowCount(|src.bytes|, cfg, tab) ==>
              forall k :: FirstElement(cfg, NextAfter(cursor)) <= k ==> !ElementMatches(src, cfg, tab, k, term, floats)
  {
    if |term| == 0 {
      return NoTerm;
    }
    if tab == Tchar {
      r := SearchText(ViewText(src, cfg.from, cfg.phase), term, cursor);
    } else {
      r := SearchTyped(src, cfg, tab, term, cursor, floats);
    }
  }

  /** The next-AOI command: the text tab sweeps the text view, the other tabs their typed column. */
  method NextAOI(src: ByteSource, cfg: Config, tab: DataType, cursor: int, floats: FloatOracle)
    returns (r: SearchResult)
    requires cfg.Valid()
    ensures r.Found? || r.NotFound?
    ensures tab == Tchar && r.Found? ==>
              var text := ViewText(src, cfg.from, cfg.phase);
              && cursor < r.at && r.at + WindowLength < |text| && TokenWindowAt(text, r.at)
              && forall p :: NextAfter(cursor) <= p < r.at ==> !TokenWindowAt(text, p)
    ensures tab == Tchar && r.NotFound? ==>
              var text := ViewText(src, cfg.from, cfg.phase);
              forall p :: NextAfter(cursor) <= p && p + WindowLength < |text| ==> !TokenWindowAt(text, p)
    ensures tab != Tchar && r.Found? ==> 1 <= r.at && cursor < r.at < RowCount(|src.bytes|, cfg, tab)
    ensures tab != Tchar && r.Found? ==>
              exists k :: FirstElement(cfg, AoiStartRow(cursor)) <= k
                && AoiAt(src, cfg, tab, k, floats)
                && r.at == RowOf(ElementOffset(cfg.phase, Width(tab), k), cfg, tab)
                && forall j :: FirstElement(cfg, AoiStartRow(cursor)) <= j < k ==> !AoiAt(src, cfg, tab, j, floats)
    ensures tab != Tchar && AoiStartRow(cursor) >= RowCount(|src.bytes|, cfg, tab) ==> r.NotFound?
    ensures tab != Tchar && r.NotFound? && AoiStartRow(cursor) < RowCount(|src.bytes|, cfg, tab) ==>
              forall k :: FirstElement(cfg, AoiStartRow(cursor)) <= k ==> !AoiAt(src, cfg, tab, k, floats)
  {
    if tab == Tchar {
      r := NextAoiText(ViewText(src, cfg.from, cfg.phase), cursor);
    } else {
      r := NextAoiTyped(src, cfg, tab, cursor, floats);
    }
  }
}

=== FILE: text.dfy ===
/**
 The text view: the file rendered byte by byte into displayable text, and the
 predicate that decides whether a piece of that text looks like an
 identifier-like token.
 */
module TextView {
  import opened CInt
  import opened Bytes
  import opened Layout
  import opened Decimal

  /**
   One byte of the text view, as the rendering chain tests it: printable bytes
   verbatim, newline kept, carriage return dropped, tab as four spaces, any
   other byte as `*`. The tests for a space and for a second tab come after
   tests that already catch those bytes.
   */
  function RenderByte(b: byte): (s: string)
    ensures 1 <= |s| <= 4 || b == 13
    ensures |s| <= 4 && (|s| == 0 <==> b == 13)
    ensures forall i :: 0 <= i < |s| ==> s[i] >= ' ' || s[i] == '\n'
  {
    if b >= 32 then [b as char]
    else if b == 10 then "\n"
    else if b == 13 then ""
    else if b == 32 then " "
    else if b == 9 then "    "
    else if b == 9 then "NULL"
    else "*"
  }

  /** The effective table: the space test and the second tab test are never reached. */
  lemma RenderByteTable(b: byte)
    ensures b >= 32 ==> RenderByte(b) == [b as char]
    ensures b == 10 ==> RenderByte(b) == "\n"
    ensures b == 13 ==> RenderByte(b) == ""
    ensures b == 9 ==> RenderByte(b) == "    "
    ensures b < 32 && b != 9 && b != 10 && b != 13 ==> RenderByte(b) == "*"
    ensures RenderByte(b) != "NULL"
  {
  }

  /** The text of a byte sequence: each byte's rendering, in order. */
  function Render(bs: seq<byte>): (s: string)
    ensures forall i :: 0 <= i < |s| ==> s[i] >= ' ' || s[i] == '\n'
    ensures |s| <= 4 * |bs|
  {
    if |bs| == 0 then "" else RenderByte(bs[0]) + Render(bs[1..])
  }

  /** Rendering distributes over concatenation of byte sequences. */
  lemma {:induction false} RenderConcat(a: seq<byte>, b: seq<byte>)
    ensures Render(a + b) == Render(a) + Render(b)
  {
    if |a| > 0 {
      assert (a + b)[0] == a[0] && (a + b)[1..] == a[1..] + b;
      RenderConcat(a[1..], b);
      assert Render(a + b) == RenderByte(a[0]) + (Render(a[1..]) + Render(b));
      ConcatAssoc(RenderByte(a[0]), Render(a[1..]), Render(b));
    } else {
      assert a + b == b;
    }
  }

  lemma ConcatAssoc(x: string, y: string, z: string)
    ensures x + (y + z) == (x + y) + z
  {
  }

  /** Bytes that are all printable render as themselves. */
  lemma {:induction false} RenderPrintable(bs: seq<byte>)
    requires forall i :: 0 <= i < |bs| ==> bs[i] >= 32
    ensures |Render(bs)| == |bs|
    ensures forall i :: 0 <= i < |bs| ==> Render(bs)[i] == bs[i] as char
  {
    if |bs| > 0 {
      RenderPrintable(bs[1..]);
    }
  }

  /**
   The content of the text view for a file: the error text when the stream
   has failed, nothing for an empty file, and otherwise the rendering of every
   byte from `from + phase` to the end (`from` counted in bytes here).
   */
  function ViewText(src: ByteSource, from: int, phase: int): (s: string)
    requires from + phase >= 0
    ensures src.failed ==> s == "Error"
    ensures !src.failed && from + phase >= |src.bytes| ==> s == ""
    ensures !src.failed && from + phase <= |src.bytes|
            ==> Render(src.bytes[..from + phase]) + s == Render(src.bytes)
  {
    if src.failed then "Error"
    else if |src.bytes| == 0 then ""
    else if from + phase >= |src.bytes| then
      assert src.bytes[..|src.bytes|] == src.bytes;
      ""
    else
      var start := from + phase;
      var (before, after) := (src.bytes[..start], src.bytes[start..]);
      assert before + after == src.bytes;
      RenderConcat(before, after);
      Render(after)
  }

  /** ASCII letters, as the toolkit's letter test accepts them. */
  predicate IsLetter(c: char) {
    'A' <= c <= 'Z' || 'a' <= c <= 'z'
  }

  /** The characters an identifier-like token may hold. */
  predicate IsTokenChar(c: char) {
    IsDigit(c) || IsLetter(c) || c == '_' || c == '.' || c == ','
  }

  /** The text classifier: scans left to right and rejects at the first other character. */
  function IsTextAOI(s: string): bool
  {
    if |s| == 0 then true
    else if !IsTokenChar(s[0]) then false
    else IsTextAOI(s[1..])
  }

  /** The classifier accepts exactly the strings made only of token characters. */
  lemma {:induction false} TextAOIIff(s: string)
    ensures IsTextAOI(s) <==> forall i :: 0 <= i < |s| ==> IsTokenChar(s[i])
  {
    if |s| > 0 {
      TextAOIIff(s[1..]);
      assert forall i :: 1 <= i < |s| ==> s[i] == s[1..][i - 1];
    }
  }

  /** A concatenation is accepted exactly when both parts are. */
  lemma TextAOIConcat(a: string, b: string)
    ensures IsTextAOI(a + b) <==> IsTextAOI(a) && IsTextAOI(b)
  {
    TextAOIIff(a);
    TextAOIIff(b);
    TextAOIIff(a + b);
    assert forall i :: 0 <= i < |a| ==> (a + b)[i] == a[i];
    assert forall i :: 0 <= i < |b| ==> (a + b)[|a| + i] == b[i];
    if IsTextAOI(a) && IsTextAOI(b) {
      forall i | 0 <= i < |a + b|
        ensures IsTokenChar((a + b)[i])
      {
        if i >= |a| {
          assert (a + b)[i] == b[i - |a|];
        }
      }
    }
  }

  /**
   The text view skips `from` bytes while the grid skips `from` elements: the
   first rendered byte is the grid's first cell only without an element skip
   or for one-byte elements.
   */
  lemma TextOriginVsGridOrigin(cfg: Config, t: DataType)
    ensures cfg.from + cfg.phase == CellOffset(cfg, t, 0, 0) <==> cfg.from == 0 || Width(t) == 1
  {
    var w := Width(t);
    assert CellOffset(cfg, t, 0, 0) - cfg.phase - cfg.from == cfg.from * (w - 1);
    if cfg.from != 0 && w != 1 {
      if cfg.from > 0 {
        MulAtLeast(cfg.from, w - 1);
      } else {
        MulAtLeast(-cfg.from, w - 1);
        assert cfg.from * (w - 1) == -((-cfg.from) * (w - 1));
      }
    }
  }
}
